=== FILE: README.md ===
# NEAR NFT ownership ledger — a Dafny model

This project models the ownership ledger of the election NFT contract. The ledger has five parts:

- the ownership store `tokens_by_id`, mapping a token id to its owner;
- the token metadata `token_metadata_by_id`, of which the model keeps `token_id`, `token_kind` and `num_of_likes`;
- the owner index, mapping an owner to a set of token ids;
- the kind index, mapping a pair (owner, kind) to a set of token ids;
- `token_id_counter`.

Every operation is a pure function. It takes a `Store.Ledger` and returns a new one, or it panics. A panic is written `Err(..)`, and a panicking call changes nothing, because NEAR reverts every write of a receipt that panics.

The modules follow the source files:

- `Store` (`store.dfy`) holds the ledger record and the three index helpers the contract calls. It also defines `Consistent`, the ledger invariant. Mint, `token_id_count` (a public entry point of its own), the queries and resolve keep it on every input. `nft_transfer` and the first phase of `nft_transfer_call` keep it when the sender owns the token; a transfer by anyone else can leave the previous owner's index entry behind, because the assumed `internal_transfer` removes the id from the sender's entry. Under `Consistent`:
  - every id in use is below the counter;
  - every token has metadata stamped with its own id and a like count;
  - the owner index holds exactly the (owner, token) pairs the store records;
  - every kind-index entry names a token of that kind.
- `Minting` (`mint.dfy`) holds `nft_mint`, `token_id_count` and `show_token_id_counter`. It also defines `MintMany`, a run of successive mints.
- `Core` (`nft_core.dfy`) holds the queries, `nft_transfer`, `nft_transfer_call` and `nft_resolve_transfer`.
- `JsonBool` (`json_bool.dfy`) models how `serde_json::from_slice::<bool>` decodes the hook's payload. It accepts optional JSON whitespace, then `true` or `false`, then optional JSON whitespace. Anything else is a decoding error.
- `Protocol` (`protocol.dfy`) proves end-to-end facts about the two-phase transfer.

The cross-contract chain of `nft_transfer_call` is not modelled as a promise. It is two explicit phases:

1. `Core.NftTransferCall` applies the transfer optimistically. It returns the arguments of the receiver's `nft_on_transfer` hook and a `PendingResolve` record `{ownerId, receiverId, tokenId}`.
2. `Core.NftResolveTransfer` consumes that record and a `PromiseResult`. The `PromiseResult` is `NotReady`, `Successful(payload)` or `Failed`.

Between the two phases any other call may run. `Protocol.LaterTransferIsNotReverted` covers the case where one does.

Stated assumptions. The bodies of `internal_transfer` and the owner- and kind-index helpers are not part of this model. The model gives them these semantics:

- `internal_add_token_to_owner` and `internal_add_token_to_kind_map` insert the id into the entry's set. An absent entry counts as an empty set.
- `internal_remove_token_from_owner` removes the id from the owner's set. If the owner has no entry, it does nothing.
- `internal_transfer(sender, receiver, id)` removes the id from `sender`'s entry and adds it to `receiver`'s. It records `receiver` as owner and returns the record it replaced. An unknown id panics, because a prior record must be returned. It does not touch the kind index.
- No authorisation check and no self-transfer check are modelled, because no line of the modelled files performs one.
- Ledger properties are stated through `Store.Owns`, which is membership in the owner index. They therefore do not depend on whether an emptied entry is kept or deleted.

Facts about the code that shape the model:

- `nft_candidate_add_like` does not store the incremented count (see Findings).
- No line of `src/nft_core.rs` or `src/mint.rs` checks that the sender owns the token or rejects a self-transfer.
- Resolve's rollback (`src/nft_core.rs:162-168`) never updates the kind index, so only soundness of the kind index is claimed: each entry names a token of that kind.

## Model

| member | source | states |
|---|---|---|
| Store.AddTokenToOwner | src/nft_core.rs:164 | owner-index membership afterwards is membership before plus exactly (owner, id) |
| Store.RemoveTokenFromOwner | src/nft_core.rs:162 | owner-index membership afterwards is membership before minus exactly (owner, id) |
| Store.AddTokenToKindMap | src/mint.rs:28 | kind-index membership afterwards is membership before plus exactly (owner, kind, id) |
| Minting.TokenIdCount | src/mint.rs:38-40 | the counter grows by exactly one and nothing else in the ledger changes |
| Minting.TokenIdCountPreservesConsistent | src/mint.rs:38-40 | called on its own, token_id_count keeps a consistent ledger consistent |
| Minting.ShowTokenIdCounter | src/mint.rs:43-45 | on a consistent ledger the reported value is an id no token holds yet |
| Minting.NftMint | src/mint.rs:8-35 | panics with TokenAlreadyExists iff the counter value is already a token id. On success: the new id is the pre-increment counter; the counter grows by one; the receiver owns the token in the store, the owner index and the (receiver, kind) kind entry; the metadata carries `token_id = Some(id)`, `num_of_likes = Some(0)` and the given kind; every earlier token keeps its owner and metadata; the indices gain nothing else |
| Minting.ShowTokenIdCounterIsNextId | src/mint.rs:9-45 | the next successful mint allocates exactly the id show_token_id_counter reports, and afterwards the counter reports the following one |
| Minting.MintPreservesConsistent | src/mint.rs:18-32 | on a consistent ledger mint never hits the collision assertion and leaves the ledger consistent |
| Minting.MintMany | src/mint.rs:8-40 | successive mints allocate consecutive counter values: strictly increasing, pairwise distinct ids; each is owned by its request's receiver; every earlier token keeps its owner record, its metadata and its owner-index membership; `Err` means the run stopped and carries no ledger, although earlier mints stay committed |
| Minting.MintManyFromConsistent | src/mint.rs:18-32 | from a consistent ledger every run of mints succeeds and ends consistent |
| JsonBool.Decode | src/nft_core.rs:144 | a decoded boolean always comes from the literal `true`/`false` padded only by JSON whitespace |
| JsonBool.DecodePaddedLiteral | src/nft_core.rs:144 | every whitespace-padded literal decodes to its boolean; with Decode's contract this is an iff |
| JsonBool.DecodeEncode | src/nft_core.rs:144 | decoding the JSON encoding of a boolean gives that boolean back |
| Core.NftToken | src/nft_core.rs:85-95 | panics only when a known token lacks metadata; otherwise answers `None` exactly for an unknown id, and `Some` with the stored owner and metadata for a known one |
| Core.NftTokenOnConsistent | src/nft_core.rs:85-95 | on a consistent ledger nft_token never panics, answers `None` exactly for unknown ids and otherwise the stored owner |
| Core.NftCheckCandidateLike | src/nft_core.rs:124-131 | `Some(0)` for an unknown id; otherwise the stored `num_of_likes` |
| Core.NftCandidateAddLike | src/nft_core.rs:98-121 | `Some(0)` for an unknown id; otherwise the stored count plus one, panicking if the count or metadata is missing; the ledger is returned unchanged |
| Core.AddLikeIsNotPersisted | src/nft_core.rs:98-131 | on a consistent ledger add-like answers one more than check-like, a later check still sees the old count, and both answer `Some(0)` for unknown ids |
| Core.NftCandidateAddLikeStored | src/nft_core.rs:106-115 | corrected add-like: same answer as the source, and only the liked token's metadata may change |
| Core.AddLikeStoredIsPersisted | src/nft_core.rs:106-115 | with the write-back, a later check sees the count the like reported, one more than before, and the ledger stays consistent |
| Core.InternalTransfer | src/nft_core.rs:66 | assumed semantics of internal_transfer: panics iff the id is unknown; returns the replaced record; the store records the receiver; the id leaves the sender's index entry and joins the receiver's; nothing else changes |
| Core.InternalTransferPreservesConsistent | src/nft_core.rs:52 | a transfer by the current owner keeps the ledger consistent |
| Core.NftTransfer | src/nft_core.rs:48-53 | panics without exactly one yoctoNEAR attached. Otherwise it succeeds iff the token exists. The receiver then owns it in the store and the owner index, and the token leaves the sender's entry when the two differ. Every other token keeps its owner, and the counter is unchanged. The resulting ledger is exactly internal_transfer's, so nothing else changes |
| Core.NftTransferPreservesConsistent | src/nft_core.rs:48-53 | a transfer by the token's owner succeeds and keeps the ledger consistent |
| Core.NftTransferCall | src/nft_core.rs:56-82 | panics without one yoctoNEAR attached; otherwise succeeds iff the token exists. The hook is called on the receiver with (sender, pre-transfer owner, token id, msg). Resolve's `owner_id` is bound to the pre-transfer owner, and its `receiver_id` and `token_id` to the call's own arguments. The receiver owns the token afterwards and the sender no longer does when the two differ. Every other token keeps its owner and the counter is unchanged. The resulting ledger is exactly internal_transfer's |
| Core.NftTransferCallPreservesConsistent | src/nft_core.rs:56-66 | the optimistic phase of a transfer_call by the token's owner succeeds and keeps the ledger consistent |
| Core.NftResolveTransfer | src/nft_core.rs:137-171 | returns `true` with the ledger unchanged when the payload decodes to `false`, the token is gone, or its owner is not the receiver. It returns `false` exactly otherwise, with the token back with the previous owner in the store and the owner index. Only that token's entries change, and metadata, kind index and counter are kept |
| Core.ResolveTreatsNonKeepOutcomesAlike | src/nft_core.rs:143-149 | a failed hook, no result, an undecodable payload and a payload of `true` all resolve identically |
| Core.ResolveKeepsOnFalse | src/nft_core.rs:143-148 | a payload of `false`, with any JSON whitespace, makes resolve return `true` with the ledger unchanged |
| Core.ResolvePreservesOwnerIndexAgreement | src/nft_core.rs:162-168 | whatever resolve decides, if the owner index agreed with the store before, it agrees afterwards |
| Core.ResolvePreservesConsistent | src/nft_core.rs:151-170 | whatever resolve decides, a consistent ledger stays consistent |
| Protocol.TransferCallThenRollbackRestores | src/nft_core.rs:66-170 | Assumes a transfer_call of an existing token on a consistent ledger, by any sender, and a hook that does not keep the token. Then resolve reports `false`. The store equals the pre-transfer store, the owner index has the same membership, and everything else is identical. When the sender owned the token, the ledger is consistent |
| Protocol.TransferCallThenKeep | src/nft_core.rs:143-148 | when the hook keeps the token, resolve reports `true` and the receiver owns it in store and index |
| Protocol.LaterTransferIsNotReverted | src/nft_core.rs:151-154 | if the receiver transfers the token onward before resolve, resolve leaves that ledger untouched and reports `true`, whatever the hook said |
| Protocol.ScenarioReturnedToken | src/nft_core.rs:56-171 | token 0 minted to Alice, sent to Bob by transfer_call, Bob's hook answers `true`: the token is back with Alice in store and index, and resolve reports `false` |

## Left out

- Storage accounting (`env::storage_usage`) and `refund_deposit`: the body of `refund_deposit` is not part of this model. Any abort it can raise inside `nft_mint`, for example on too small an attached deposit, is not modelled; such an abort would revert the whole mint. So `Minting.MintPreservesConsistent` and `Minting.MintManyFromConsistent` speak only of the ledger logic of `src/mint.rs`.
- Gas constants and the promise machinery (`ext_contract`, `.then`, `PromiseOrValue`): replaced by the two explicit phases and the `PromiseResult` datatype. The receiver's hook is external code; its outcome is a parameter.
- `env::predecessor_account_id` is the `senderId` parameter. `assert_one_yocto` is the `oneYoctoAttached` flag.
- The `#[private]` restriction on `nft_resolve_transfer` is not modelled. The SDK macro compiles it into a check in the contract itself, which panics when the caller is not the contract's own account.
- `log!` calls: they have no effect on state.
- JSON serialisation other than decoding the hook's boolean payload.
- `TokenMetadata` fields other than `token_id`, `token_kind` and `num_of_likes`.
- `memo` is not modelled. It is only passed to `internal_transfer`, which is not part of this model.
- `internal_transfer` and the index helpers: only their stated semantics are modelled (see above). No authorisation or self-transfer check is claimed.
- The contract constructor is not part of this model. `Store.Initial`, an empty ledger with counter 0, is an assumption used by the scenario.
- Minting.TokenIdCount: does not model u128 overflow of `token_id_counter`. The counter is an unbounded `nat`, and the build profile that decides between panic and wrap-around is not part of this model.
- Core.NftCandidateAddLike: does not model u128 overflow of the `+ 1` on the like count, for the same reason.
- That the (owner, kind) entry lists exactly the tokens the owner currently holds of that kind is not claimed. Resolve's rollback (src/nft_core.rs:162-168) never updates the kind index, and `internal_transfer` is assumed not to touch it, so only soundness is claimed.

## Findings

| source | as written | input that shows it | evidently intended | confidence | as-written member | corrected member |
|---|---|---|---|---|---|---|
| src/nft_core.rs:100-117 | The like count is read into a local copy, `replace`d there and returned. It is never inserted back into `token_metadata_by_id`. | A minted token with `num_of_likes = Some(0)`: `nft_candidate_add_like` answers `Some(1)`, and then `nft_check_candidate_like` still answers `Some(0)`. | The incremented count is stored. The log at lines 108-115 prints the stored count as the "number of likes in contract" right after the increment. | medium; not executed | Core.AddLikeIsNotPersisted | Core.AddLikeStoredIsPersisted |

=== FILE: json_bool.dfy ===
/**
  Decoding of the receiver hook's return payload as a JSON boolean, the way
  `serde_json::from_slice::<bool>` reads it: optional JSON whitespace, the
  literal `true` or `false`, optional JSON whitespace, nothing else.
*/
module JsonBool {
  import opened Options

  newtype byte = x: int | 0 <= x < 256

  const TrueLiteral: seq<byte> := [0x74, 0x72, 0x75, 0x65]
  const FalseLiteral: seq<byte> := [0x66, 0x61, 0x6C, 0x73, 0x65]

  /** The JSON encoding of a boolean. */
  function Encode(b: bool): (s: seq<byte>)
    ensures |s| > 0 && !IsWhitespace(s[0]) && !IsWhitespace(s[|s| - 1])
  {
    if b then TrueLiteral else FalseLiteral
  }

  /** Space, horizontal tab, line feed and carriage return (RFC 8259, section 2). */
  predicate IsWhitespace(c: byte) {
    c == 0x20 || c == 0x09 || c == 0x0A || c == 0x0D
  }

  ghost predicate AllWhitespace(s: seq<byte>) {
    forall i :: 0 <= i < |s| ==> IsWhitespace(s[i])
  }

  /** `s` is the encoding of `b` with whitespace padding on either side. */
  ghost predicate IsPaddedLiteral(s: seq<byte>, b: bool) {
    exists i, j :: 0 <= i <= j <= |s| && AllWhitespace(s[..i]) && s[i..j] == Encode(b) && AllWhitespace(s[j..])
  }

  /** The length of the longest all-whitespace prefix of `s`. */
  function LeadingWhitespace(s: seq<byte>): (n: nat)
    ensures n <= |s|
    ensures AllWhitespace(s[..n])
    ensures n < |s| ==> !IsWhitespace(s[n])
  {
    if s == [] || !IsWhitespace(s[0]) then 0
    else
      var n := 1 + LeadingWhitespace(s[1..]);
      assert s[..n] == [s[0]] + s[1..][..n - 1];
      n
  }

  /** The length of the longest all-whitespace suffix of `s`. */
  function TrailingWhitespace(s: seq<byte>): (n: nat)
    ensures n <= |s|
    ensures AllWhitespace(s[|s| - n..])
    ensures n < |s| ==> !IsWhitespace(s[|s| - n - 1])
  {
    if s == [] || !IsWhitespace(s[|s| - 1]) then 0
    else
      var init := s[..|s| - 1];
      var n := 1 + TrailingWhitespace(init);
      assert s[|s| - n..] == init[|init| - (n - 1)..] + [s[|s| - 1]];
      n
  }

  /** The payload with surrounding whitespace removed. */
  function Trim(s: seq<byte>): (core: seq<byte>)
    ensures exists i :: 0 <= i <= i + |core| <= |s| && AllWhitespace(s[..i]) && s[i..i + |core|] == core && AllWhitespace(s[i + |core|..])
  {
    var a := LeadingWhitespace(s);
    var rest := s[a..];
    var b := TrailingWhitespace(rest);
    var core := rest[..|rest| - b];
    assert s[a..a + |core|] == core;
    assert s[a + |core|..] == rest[|rest| - b..];
    core
  }

  /** `serde_json::from_slice::<bool>`: `Some(b)` on success, `None` on a decoding error. */
  function Decode(s: seq<byte>): (r: Option<bool>)
    ensures r.Some? ==> IsPaddedLiteral(s, r.value)
  {
    var core := Trim(s);
    if core == TrueLiteral then Some(true)
    else if core == FalseLiteral then Some(false)
    else None
  }

  lemma {:induction false} LeadingOfPadded(ws: seq<byte>, rest: seq<byte>)
    requires AllWhitespace(ws)
    requires rest != [] && !IsWhitespace(rest[0])
    ensures LeadingWhitespace(ws + rest) == |ws|
  {
    if ws != [] {
      assert (ws + rest)[1..] == ws[1..] + rest;
      LeadingOfPadded(ws[1..], rest);
    } else {
      assert ws + rest == rest;
    }
  }

  lemma {:induction false} TrailingOfPadded(rest: seq<byte>, ws: seq<byte>)
    requires AllWhitespace(ws)
    requires rest != [] && !IsWhitespace(rest[|rest| - 1])
    ensures TrailingWhitespace(rest + ws) == |ws|
  {
    if ws != [] {
      var s := rest + ws;
      assert s[..|s| - 1] == rest + ws[..|ws| - 1];
      TrailingOfPadded(rest, ws[..|ws| - 1]);
    } else {
      assert rest + ws == rest;
    }
  }

  /** Trimming a padded literal yields the literal. */
  lemma TrimPadded(ws1: seq<byte>, lit: seq<byte>, ws2: seq<byte>)
    requires AllWhitespace(ws1) && AllWhitespace(ws2)
    requires lit == TrueLiteral || lit == FalseLiteral
    ensures Trim(ws1 + lit + ws2) == lit
  {
    var s := ws1 + lit + ws2;
    assert s == ws1 + (lit + ws2);
    LeadingOfPadded(ws1, lit + ws2);
    var rest := s[|ws1|..];
    assert rest == lit + ws2;
    TrailingOfPadded(lit, ws2);
    assert rest[..|rest| - |ws2|] == lit;
  }

  /** Every whitespace-padded literal decodes to its boolean: with the
      ensures of Decode, `Decode(s) == Some(b)` exactly when `s` is one. */
  lemma DecodePaddedLiteral(s: seq<byte>, b: bool)
    requires IsPaddedLiteral(s, b)
    ensures Decode(s) == Some(b)
  {
    var i, j :| 0 <= i <= j <= |s| && AllWhitespace(s[..i]) && s[i..j] == Encode(b) && AllWhitespace(s[j..]);
    var ws1, ws2 := s[..i], s[j..];
    assert s == ws1 + Encode(b) + ws2;
    TrimPadded(ws1, Encode(b), ws2);
    DecodeOfTrimmedLiteral(s, b);
  }

  /** Decode answers `b` once the trimmed payload is the literal of `b`. */
  lemma DecodeOfTrimmedLiteral(s: seq<byte>, b: bool)
    requires Trim(s) == Encode(b)
    ensures Decode(s) == Some(b)
  {
    assert TrueLiteral != FalseLiteral by { assert |TrueLiteral| != |FalseLiteral|; }
  }

  /** Decoding inverts encoding. */
  lemma DecodeEncode(b: bool)
    ensures Decode(Encode(b)) == Some(b)
  {
    var s := Encode(b);
    assert s[..0] == [] && s[0..|s|] == s && s[|s|..] == [];
    DecodePaddedLiteral(s, b);
  }
}

=== FILE: mint.dfy ===
/**
  Minting (`nft_mint`) and the token id counter (`token_id_count`,
  `show_token_id_counter`).
*/
module Minting {
  import opened Options
  import opened Store

  /** token_id_count: advances the counter by one and touches nothing else. */
  function TokenIdCount(l: Ledger): (r: Ledger)
    ensures r.tokenIdCounter == l.tokenIdCounter + 1
    ensures r.(tokenIdCounter := l.tokenIdCounter) == l
  {
    l.(tokenIdCounter := l.tokenIdCounter + 1)
  }

  /** token_id_count is a public entry point of its own, and keeps a
      consistent ledger consistent: ids in use stay below the counter. */
  lemma TokenIdCountPreservesConsistent(l: Ledger)
    requires Consistent(l)
    ensures Consistent(TokenIdCount(l))
  {
  }

  /** show_token_id_counter: the id the next mint allocates, which no token of
      a consistent ledger holds yet. */
  function ShowTokenIdCounter(l: Ledger): (r: TokenId)
    ensures Consistent(l) ==> r !in l.tokensById
  {
    l.tokenIdCounter
  }

  /** What a successful mint of `metadata` to `receiverId` does to the ledger. */
  ghost predicate Minted(l: Ledger, l': Ledger, metadata: TokenMetadata, receiverId: AccountId) {
    var id := l.tokenIdCounter;
    && l'.tokenIdCounter == l.tokenIdCounter + 1
    // the new token, owned by the receiver, with stamped metadata
    && l'.tokensById.Keys == l.tokensById.Keys + {id}
    && l'.tokensById[id].ownerId == receiverId
    && l'.tokenMetadataById.Keys == l.tokenMetadataById.Keys + {id}
    && l'.tokenMetadataById[id].tokenId == Some(id)
    && l'.tokenMetadataById[id].numOfLikes == Some(0)
    && l'.tokenMetadataById[id].tokenKind == metadata.tokenKind
    // every earlier token keeps its owner and metadata
    && (forall t :: t in l.tokensById && t != id ==> l'.tokensById[t] == l.tokensById[t])
    && (forall t :: t in l.tokenMetadataById && t != id ==> l'.tokenMetadataById[t] == l.tokenMetadataById[t])
    // both indices gain exactly the new token
    && (forall o, t :: Owns(l'.tokensPerOwner, o, t) <==> Owns(l.tokensPerOwner, o, t) || (o == receiverId && t == id))
    && (forall o, k, t :: HasKind(l'.tokensPerKind, o, k, t) <==>
          HasKind(l.tokensPerKind, o, k, t) || (o == receiverId && k == metadata.tokenKind && t == id))
  }

  /** nft_mint: allocates the counter value as the new id, aborts with
      "Token already exists" if that id is taken, otherwise records the token,
      its metadata and both index entries, then advances the counter. */
  function NftMint(l: Ledger, metadata: TokenMetadata, receiverId: AccountId): (r: Result<Ledger>)
    ensures r.Err? <==> l.tokenIdCounter in l.tokensById
    ensures r.Err? ==> r.error == TokenAlreadyExists
    ensures r.Ok? ==> Minted(l, r.value, metadata, receiverId)
  {
    var tokenId := l.tokenIdCounter;
    var stamped := metadata.(tokenId := Some(tokenId), numOfLikes := Some(0));
    var token := TokenOwner(receiverId);
    if tokenId in l.tokensById then
      Err(TokenAlreadyExists)
    else
      var stored := l.(
        tokensById := l.tokensById[tokenId := token],
        tokenMetadataById := l.tokenMetadataById[tokenId := stamped],
        tokensPerOwner := AddTokenToOwner(l.tokensPerOwner, token.ownerId, tokenId),
        tokensPerKind := AddTokenToKindMap(l.tokensPerKind, token.ownerId, tokenId, stamped.tokenKind));
      Ok(TokenIdCount(stored))
  }

  /** The next mint allocates exactly the id show_token_id_counter reports. */
  lemma ShowTokenIdCounterIsNextId(l: Ledger, metadata: TokenMetadata, receiverId: AccountId)
    requires NftMint(l, metadata, receiverId).Ok?
    ensures ShowTokenIdCounter(l) !in l.tokensById
    ensures NftMint(l, metadata, receiverId).value.tokenMetadataById[ShowTokenIdCounter(l)].tokenId == Some(ShowTokenIdCounter(l))
    ensures ShowTokenIdCounter(NftMint(l, metadata, receiverId).value) == ShowTokenIdCounter(l) + 1
  {
  }

  /** On a consistent ledger mint never collides, and it keeps the ledger consistent. */
  lemma MintPreservesConsistent(l: Ledger, metadata: TokenMetadata, receiverId: AccountId)
    requires Consistent(l)
    ensures NftMint(l, metadata, receiverId).Ok?
    ensures Consistent(NftMint(l, metadata, receiverId).value)
  {
    var l' := NftMint(l, metadata, receiverId).value;
    assert Minted(l, l', metadata, receiverId);
    var id := l.tokenIdCounter;
    forall o, t
      ensures Owns(l'.tokensPerOwner, o, t) <==> t in l'.tokensById && l'.tokensById[t].ownerId == o
    {
      if t == id {
        assert !Owns(l.tokensPerOwner, o, t);
      }
    }
  }

  datatype MintRequest = MintRequest(metadata: TokenMetadata, receiverId: AccountId)

  /** Successive nft_mint calls, stopping at the first panic. On success it
      returns the allocated ids: consecutive counter values, so strictly
      increasing and pairwise distinct, each owned by its request's receiver;
      every earlier token keeps its owner, metadata and owner-index entry.
      `Err` only says that the run stopped: each mint is a call of its own,
      so the mints before the panic stay committed, but the error carries no
      ledger. */
  function MintMany(l: Ledger, requests: seq<MintRequest>): (r: Result<(Ledger, seq<TokenId>)>)
    ensures r.Ok? ==> |r.value.1| == |requests|
    ensures r.Ok? ==> r.value.0.tokenIdCounter == l.tokenIdCounter + |requests|
    ensures r.Ok? ==> forall i :: 0 <= i < |requests| ==> r.value.1[i] == l.tokenIdCounter + i
    ensures r.Ok? ==> forall i, j :: 0 <= i < j < |requests| ==> r.value.1[i] < r.value.1[j]
    ensures r.Ok? ==> forall i :: 0 <= i < |requests| ==>
              r.value.1[i] in r.value.0.tokensById && r.value.0.tokensById[r.value.1[i]].ownerId == requests[i].receiverId
    ensures r.Ok? ==> forall t :: t in l.tokensById ==> t in r.value.0.tokensById && r.value.0.tokensById[t] == l.tokensById[t]
    ensures r.Ok? ==> forall t :: t in l.tokensById && t in l.tokenMetadataById ==>
              t in r.value.0.tokenMetadataById && r.value.0.tokenMetadataById[t] == l.tokenMetadataById[t]
    ensures r.Ok? ==> forall o, t :: t in l.tokensById ==> (Owns(r.value.0.tokensPerOwner, o, t) <==> Owns(l.tokensPerOwner, o, t))
    decreases |requests|
  {
    if requests == [] then Ok((l, []))
    else
      match NftMint(l, requests[0].metadata, requests[0].receiverId)
      case Err(e) => Err(e)
      case Ok(l1) =>
        match MintMany(l1, requests[1..])
        case Err(e) => Err(e)
        case Ok((l2, ids)) => Ok((l2, [l.tokenIdCounter] + ids))
  }

  /** From a consistent ledger every run of mints succeeds and stays consistent. */
  lemma {:induction false} MintManyFromConsistent(l: Ledger, requests: seq<MintRequest>)
    requires Consistent(l)
    ensures MintMany(l, requests).Ok?
    ensures Consistent(MintMany(l, requests).value.0)
    decreases |requests|
  {
    if requests != [] {
      MintPreservesConsistent(l, requests[0].metadata, requests[0].receiverId);
      MintManyFromConsistent(NftMint(l, requests[0].metadata, requests[0].receiverId).value, requests[1..]);
    }
  }
}

=== FILE: nft_core.dfy ===
/**
  The token core: the queries `nft_token`, `nft_candidate_add_like` and
  `nft_check_candidate_like`, the transfers `nft_transfer` and
  `nft_transfer_call`, and the resolve step `nft_resolve_transfer`.

  The cross-contract call of `nft_transfer_call` is split into two phases:
  `NftTransferCall` applies the transfer and returns the arguments of the
  receiver's `nft_on_transfer` hook together with a `PendingResolve` record;
  `NftResolveTransfer` later consumes that record and the hook's outcome.
*/
module Core {
  import opened Options
  import opened Store
  import JsonBool

  // ---------------------------------------------------------------- queries

  datatype JsonToken = JsonToken(ownerId: AccountId, metadata: TokenMetadata)

  /** nft_token: `None` for an unknown id, otherwise the stored owner and
      metadata; panics only if a known token has no metadata. */
  function NftToken(l: Ledger, tokenId: TokenId): (r: Result<Option<JsonToken>>)
    ensures tokenId !in l.tokensById ==> r == Ok(None)
    ensures tokenId in l.tokensById ==> (r.Ok? <==> tokenId in l.tokenMetadataById)
    ensures r.Err? ==> r.error == MetadataMissing
    ensures r.Ok? ==> (r.value.Some? <==> tokenId in l.tokensById)
    ensures r.Ok? && r.value.Some? ==>
              && tokenId in l.tokensById
              && r.value.value.ownerId == l.tokensById[tokenId].ownerId
              && r.value.value.metadata == l.tokenMetadataById[tokenId]
  {
    if tokenId in l.tokensById then
      if tokenId in l.tokenMetadataById then
        Ok(Some(JsonToken(l.tokensById[tokenId].ownerId, l.tokenMetadataById[tokenId])))
      else
        Err(MetadataMissing)
    else
      Ok(None)
  }

  /** nft_check_candidate_like: the stored like count, or `Some(0)` for an
      unknown id. */
  function NftCheckCandidateLike(l: Ledger, tokenId: TokenId): (r: Result<Option<nat>>)
    ensures tokenId !in l.tokensById ==> r == Ok(Some(0))
    ensures tokenId in l.tokensById ==> (r.Ok? <==> tokenId in l.tokenMetadataById)
    ensures r.Err? ==> r.error == MetadataMissing
    ensures r.Ok? && tokenId in l.tokensById ==> r.value == l.tokenMetadataById[tokenId].numOfLikes
  {
    if tokenId in l.tokensById then
      if tokenId in l.tokenMetadataById then Ok(l.tokenMetadataById[tokenId].numOfLikes)
      else Err(MetadataMissing)
    else
      Ok(Some(0))
  }

  /** The ledger after a call together with the call's return value. */
  datatype Answer<+T> = Answer(ledger: Ledger, result: Result<T>)

  /** nft_candidate_add_like: returns the stored like count plus one, or
      `Some(0)` for an unknown id. The incremented count lives in a local copy
      of the metadata and is never written back, so the ledger is unchanged. */
  function NftCandidateAddLike(l: Ledger, tokenId: TokenId): (r: Answer<Option<nat>>)
    ensures r.ledger == l
    ensures tokenId !in l.tokensById ==> r.result == Ok(Some(0))
    ensures tokenId in l.tokensById ==>
              (r.result.Ok? <==> tokenId in l.tokenMetadataById && l.tokenMetadataById[tokenId].numOfLikes.Some?)
    ensures r.result.Ok? && tokenId in l.tokensById ==>
              r.result.value == Some(l.tokenMetadataById[tokenId].numOfLikes.value + 1)
  {
    if tokenId in l.tokensById then
      if tokenId !in l.tokenMetadataById then
        Answer(l, Err(MetadataMissing))
      else
        var oldNumOfLikes := l.tokenMetadataById[tokenId].numOfLikes;
        if oldNumOfLikes.None? then Answer(l, Err(LikesMissing))
        else Answer(l, Ok(Some(oldNumOfLikes.value + 1)))
    else
      Answer(l, Ok(Some(0)))
  }

  /** On a consistent ledger nft_token never panics, answers `None` exactly
      for unknown ids, and otherwise reports the stored owner. */
  lemma NftTokenOnConsistent(l: Ledger, tokenId: TokenId)
    requires Consistent(l)
    ensures NftToken(l, tokenId).Ok?
    ensures NftToken(l, tokenId).value.None? <==> tokenId !in l.tokensById
    ensures NftToken(l, tokenId).value.Some? ==>
              NftToken(l, tokenId).value.value.ownerId == l.tokensById[tokenId].ownerId
  {
  }

  /** A like is reported but not recorded: on a consistent ledger
      nft_candidate_add_like answers one more than nft_check_candidate_like,
      and a later check still sees the old count. Both answer `Some(0)` for an
      unknown id. */
  lemma AddLikeIsNotPersisted(l: Ledger, tokenId: TokenId)
    requires Consistent(l)
    ensures NftCheckCandidateLike(l, tokenId).Ok?
    ensures NftCandidateAddLike(l, tokenId).result.Ok?
    ensures NftCheckCandidateLike(NftCandidateAddLike(l, tokenId).ledger, tokenId) == NftCheckCandidateLike(l, tokenId)
    ensures tokenId in l.tokensById ==>
              NftCandidateAddLike(l, tokenId).result.value.value == NftCheckCandidateLike(l, tokenId).value.value + 1
    ensures tokenId !in l.tokensById ==>
              NftCandidateAddLike(l, tokenId).result == NftCheckCandidateLike(l, tokenId) == Ok(Some(0))
  {
  }

  /** nft_candidate_add_like as its third log line evidently intends: the
      incremented count is stored back into the token's metadata. Answers as
      nft_candidate_add_like does; only the ledger differs. */
  function NftCandidateAddLikeStored(l: Ledger, tokenId: TokenId): (r: Answer<Option<nat>>)
    ensures r.result == NftCandidateAddLike(l, tokenId).result
    ensures r.ledger.(tokenMetadataById := l.tokenMetadataById) == l
    ensures r.ledger.tokenMetadataById.Keys == l.tokenMetadataById.Keys
    ensures forall t :: t in l.tokenMetadataById && t != tokenId ==> r.ledger.tokenMetadataById[t] == l.tokenMetadataById[t]
  {
    var answer := NftCandidateAddLike(l, tokenId);
    if answer.result.Ok? && tokenId in l.tokensById then
      var metadata := l.tokenMetadataById[tokenId];
      Answer(l.(tokenMetadataById := l.tokenMetadataById[tokenId := metadata.(numOfLikes := answer.result.value)]), answer.result)
    else
      answer
  }

  /** With the write-back, a like is recorded: a later check sees the count
      the like reported, and the ledger stays consistent. */
  lemma AddLikeStoredIsPersisted(l: Ledger, tokenId: TokenId)
    requires Consistent(l)
    requires tokenId in l.tokensById
    ensures NftCheckCandidateLike(NftCandidateAddLikeStored(l, tokenId).ledger, tokenId)
            == NftCandidateAddLikeStored(l, tokenId).result
    ensures NftCheckCandidateLike(NftCandidateAddLikeStored(l, tokenId).ledger, tokenId).value.value
            == NftCheckCandidateLike(l, tokenId).value.value + 1
    ensures Consistent(NftCandidateAddLikeStored(l, tokenId).ledger)
  {
    var l' := NftCandidateAddLikeStored(l, tokenId).ledger;
    assert l'.tokensPerKind == l.tokensPerKind && l'.tokensById == l.tokensById;
    assert l'.tokenMetadataById[tokenId].tokenKind == l.tokenMetadataById[tokenId].tokenKind;
  }

  // -------------------------------------------------------------- transfers

  /** The ledger after internal_transfer and the token record it replaced. */
  datatype Transferred = Transferred(ledger: Ledger, previous: TokenOwner)

  /** internal_transfer, whose body is not part of this model, with the
      semantics its callers rely on: the token moves from `senderId`'s owner
      index entry to `receiverId`'s, the store records `receiverId` as owner,
      and the replaced record is returned. Because a record must be returned,
      an unknown id panics. No authorisation or self-transfer check is
      modelled. */
  function InternalTransfer(l: Ledger, senderId: AccountId, receiverId: AccountId, tokenId: TokenId): (r: Result<Transferred>)
    ensures r.Err? <==> tokenId !in l.tokensById
    ensures r.Err? ==> r.error == TokenNotFound
    ensures r.Ok? ==> r.value.previous == l.tokensById[tokenId]
    ensures r.Ok? ==> r.value.ledger.tokensById == l.tokensById[tokenId := TokenOwner(receiverId)]
    ensures r.Ok? ==> forall o, t :: Owns(r.value.ledger.tokensPerOwner, o, t) <==>
              if t == tokenId then o == receiverId || (o != senderId && Owns(l.tokensPerOwner, o, t))
              else Owns(l.tokensPerOwner, o, t)
    ensures r.Ok? ==> r.value.ledger.(tokensById := l.tokensById, tokensPerOwner := l.tokensPerOwner) == l
  {
    if tokenId !in l.tokensById then Err(TokenNotFound)
    else
      var previous := l.tokensById[tokenId];
      var index := AddTokenToOwner(RemoveTokenFromOwner(l.tokensPerOwner, senderId, tokenId), receiverId, tokenId);
      Ok(Transferred(l.(tokensById := l.tokensById[tokenId := TokenOwner(receiverId)], tokensPerOwner := index), previous))
  }

  /** A transfer by the current owner keeps the ledger consistent. */
  lemma InternalTransferPreservesConsistent(l: Ledger, senderId: AccountId, receiverId: AccountId, tokenId: TokenId)
    requires Consistent(l)
    requires tokenId in l.tokensById && l.tokensById[tokenId].ownerId == senderId
    ensures InternalTransfer(l, senderId, receiverId, tokenId).Ok?
    ensures Consistent(InternalTransfer(l, senderId, receiverId, tokenId).value.ledger)
  {
    var l' := InternalTransfer(l, senderId, receiverId, tokenId).value.ledger;
    forall o, t
      ensures Owns(l'.tokensPerOwner, o, t) <==> t in l'.tokensById && l'.tokensById[t].ownerId == o
    {
      if t == tokenId && o != senderId && o != receiverId {
        assert !Owns(l.tokensPerOwner, o, t);
      }
    }
  }

  /** nft_transfer: requires exactly one yoctoNEAR attached, then transfers on
      behalf of the caller `senderId`. */
  function NftTransfer(l: Ledger, oneYoctoAttached: bool, senderId: AccountId, receiverId: AccountId, tokenId: TokenId): (r: Result<Ledger>)
    ensures !oneYoctoAttached ==> r == Err(RequiresOneYocto)
    ensures oneYoctoAttached ==> (r.Ok? <==> tokenId in l.tokensById)
    ensures r.Ok? ==> r.value.tokensById.Keys == l.tokensById.Keys
    ensures r.Ok? ==> r.value.tokensById[tokenId].ownerId == receiverId && Owns(r.value.tokensPerOwner, receiverId, tokenId)
    ensures r.Ok? ==> forall t :: t in l.tokensById && t != tokenId ==> r.value.tokensById[t] == l.tokensById[t]
    ensures r.Ok? && senderId != receiverId ==> !Owns(r.value.tokensPerOwner, senderId, tokenId)
    ensures r.Ok? ==> r.value.tokenIdCounter == l.tokenIdCounter
    ensures r.Ok? ==> InternalTransfer(l, senderId, receiverId, tokenId) == Ok(Transferred(r.value, l.tokensById[tokenId]))
  {
    if !oneYoctoAttached then Err(RequiresOneYocto)
    else
      match InternalTransfer(l, senderId, receiverId, tokenId)
      case Err(e) => Err(e)
      case Ok(moved) => Ok(moved.ledger)
  }

  /** The arguments of the receiver's nft_on_transfer hook. */
  datatype OnTransferArgs = OnTransferArgs(senderId: AccountId, previousOwnerId: AccountId, tokenId: TokenId, msg: string)

  /** The arguments bound into the nft_resolve_transfer continuation. */
  datatype PendingResolve = PendingResolve(ownerId: AccountId, receiverId: AccountId, tokenId: TokenId)

  /** The first phase of nft_transfer_call: the ledger after the optimistic
      transfer, the hook call on `hookReceiver`, and the pending resolve. */
  datatype TransferCallStarted = TransferCallStarted(
    ledger: Ledger,
    hookReceiver: AccountId,
    hook: OnTransferArgs,
    pending: PendingResolve)

  /** nft_transfer_call, first phase: transfers optimistically, calls the
      receiver's hook with the pre-transfer owner, and binds resolve's
      `owner_id` to that pre-transfer owner and its `receiver_id` and
      `token_id` to the call's own arguments. */
  function NftTransferCall(l: Ledger, oneYoctoAttached: bool, senderId: AccountId, receiverId: AccountId, tokenId: TokenId, msg: string)
    : (r: Result<TransferCallStarted>)
    ensures !oneYoctoAttached ==> r == Err(RequiresOneYocto)
    ensures oneYoctoAttached ==> (r.Ok? <==> tokenId in l.tokensById)
    ensures r.Ok? ==> r.value.pending == PendingResolve(l.tokensById[tokenId].ownerId, receiverId, tokenId)
    ensures r.Ok? ==> r.value.hookReceiver == receiverId
    ensures r.Ok? ==> r.value.hook == OnTransferArgs(senderId, l.tokensById[tokenId].ownerId, tokenId, msg)
    ensures r.Ok? ==> r.value.ledger.tokensById.Keys == l.tokensById.Keys
    ensures r.Ok? ==> r.value.ledger.tokensById[tokenId].ownerId == receiverId
    ensures r.Ok? ==> Owns(r.value.ledger.tokensPerOwner, receiverId, tokenId)
    ensures r.Ok? && senderId != receiverId ==> !Owns(r.value.ledger.tokensPerOwner, senderId, tokenId)
    ensures r.Ok? ==> forall t :: t in l.tokensById && t != tokenId ==> r.value.ledger.tokensById[t] == l.tokensById[t]
    ensures r.Ok? ==> r.value.ledger.tokenIdCounter == l.tokenIdCounter
    ensures r.Ok? ==> InternalTransfer(l, senderId, receiverId, tokenId) == Ok(Transferred(r.value.ledger, l.tokensById[tokenId]))
  {
    if !oneYoctoAttached then Err(RequiresOneYocto)
    else
      match InternalTransfer(l, senderId, receiverId, tokenId)
      case Err(e) => Err(e)
      case Ok(moved) =>
        var previousOwnerId := moved.previous.ownerId;
        Ok(TransferCallStarted(
          moved.ledger,
          receiverId,
          OnTransferArgs(senderId, previousOwnerId, tokenId, msg),
          PendingResolve(previousOwnerId, receiverId, tokenId)))
  }

  /** nft_transfer by the token's current owner keeps the ledger consistent.
      Without an authorisation check in the modelled code, a transfer by
      anyone else can leave the previous owner's index entry behind. */
  lemma NftTransferPreservesConsistent(l: Ledger, senderId: AccountId, receiverId: AccountId, tokenId: TokenId)
    requires Consistent(l)
    requires tokenId in l.tokensById && l.tokensById[tokenId].ownerId == senderId
    ensures NftTransfer(l, true, senderId, receiverId, tokenId).Ok?
    ensures Consistent(NftTransfer(l, true, senderId, receiverId, tokenId).value)
  {
    InternalTransferPreservesConsistent(l, senderId, receiverId, tokenId);
  }

  /** The optimistic phase of nft_transfer_call by the token's current owner
      keeps the ledger consistent. */
  lemma NftTransferCallPreservesConsistent(l: Ledger, senderId: AccountId, receiverId: AccountId, tokenId: TokenId, msg: string)
    requires Consistent(l)
    requires tokenId in l.tokensById && l.tokensById[tokenId].ownerId == senderId
    ensures NftTransferCall(l, true, senderId, receiverId, tokenId, msg).Ok?
    ensures Consistent(NftTransferCall(l, true, senderId, receiverId, tokenId, msg).value.ledger)
  {
    InternalTransferPreservesConsistent(l, senderId, receiverId, tokenId);
  }

  // ---------------------------------------------------------------- resolve

  /** What `env::promise_result(0)` reports about the hook call. */
  datatype PromiseResult = NotReady | Successful(value: seq<JsonBool.byte>) | Failed

  /** The hook succeeded and its payload decodes to `false`: the receiver keeps the token. */
  predicate ReceiverKeeps(outcome: PromiseResult) {
    outcome.Successful? && JsonBool.Decode(outcome.value) == Some(false)
  }

  /** The ledger after resolve and its return value (`true`: the transfer stands). */
  datatype Resolved = Resolved(ledger: Ledger, transferred: bool)

  /** `l'` differs from `l` at most in the owner of `tokenId` and in the owner
      index entries of `tokenId`. */
  ghost predicate OnlyTokenChanged(l: Ledger, l': Ledger, tokenId: TokenId) {
    && l'.tokensById.Keys == l.tokensById.Keys
    && (forall t :: t in l.tokensById && t != tokenId ==> l'.tokensById[t] == l.tokensById[t])
    && (forall o, t :: t != tokenId ==> (Owns(l'.tokensPerOwner, o, t) <==> Owns(l.tokensPerOwner, o, t)))
    && l'.tokenMetadataById == l.tokenMetadataById
    && l'.tokensPerKind == l.tokensPerKind
    && l'.tokenIdCounter == l.tokenIdCounter
  }

  /** The compensating rollback: the token is back with `p.ownerId` in the
      store, out of `p.receiverId`'s index entry (unless the two coincide)
      and in `p.ownerId`'s. */
  ghost predicate RolledBack(l: Ledger, l': Ledger, p: PendingResolve) {
    && p.tokenId in l'.tokensById
    && l'.tokensById[p.tokenId].ownerId == p.ownerId
    && Owns(l'.tokensPerOwner, p.ownerId, p.tokenId)
    && !(p.receiverId != p.ownerId && Owns(l'.tokensPerOwner, p.receiverId, p.tokenId))
    && (forall o :: o != p.receiverId && o != p.ownerId ==>
          (Owns(l'.tokensPerOwner, o, p.tokenId) <==> Owns(l.tokensPerOwner, o, p.tokenId)))
  }

  /** nft_resolve_transfer. The transfer stands, and nothing changes, when the
      hook returned `false`, when the token is gone, or when it is no longer
      owned by the receiver. In every other case (failure, no result, an
      undecodable payload, `true`) the token is returned to its previous
      owner and the call reports `false`. */
  function NftResolveTransfer(l: Ledger, p: PendingResolve, outcome: PromiseResult): (r: Resolved)
    ensures ReceiverKeeps(outcome) ==> r == Resolved(l, true)
    ensures p.tokenId !in l.tokensById ==> r == Resolved(l, true)
    ensures p.tokenId in l.tokensById && l.tokensById[p.tokenId].ownerId != p.receiverId ==> r == Resolved(l, true)
    ensures !r.transferred <==>
              !ReceiverKeeps(outcome) && p.tokenId in l.tokensById && l.tokensById[p.tokenId].ownerId == p.receiverId
    ensures !r.transferred ==> RolledBack(l, r.ledger, p)
    ensures OnlyTokenChanged(l, r.ledger, p.tokenId)
  {
    if ReceiverKeeps(outcome) then Resolved(l, true)
    else if p.tokenId !in l.tokensById then Resolved(l, true)
    else
      var token := l.tokensById[p.tokenId];
      if token.ownerId != p.receiverId then Resolved(l, true)
      else
        var index := RemoveTokenFromOwner(l.tokensPerOwner, p.receiverId, p.tokenId);
        var index' := AddTokenToOwner(index, p.ownerId, p.tokenId);
        var token' := token.(ownerId := p.ownerId);
        Resolved(l.(tokensPerOwner := index', tokensById := l.tokensById[p.tokenId := token']), false)
  }

  /** A failed hook, a hook without result, an undecodable payload and a
      payload decoding to `true` all lead to the same resolution. */
  lemma ResolveTreatsNonKeepOutcomesAlike(l: Ledger, p: PendingResolve, payload: seq<JsonBool.byte>)
    requires JsonBool.Decode(payload) != Some(false)
    ensures NftResolveTransfer(l, p, Successful(payload)) == NftResolveTransfer(l, p, Failed)
    ensures NftResolveTransfer(l, p, NotReady) == NftResolveTransfer(l, p, Failed)
    ensures NftResolveTransfer(l, p, Successful(JsonBool.Encode(true))) == NftResolveTransfer(l, p, Failed)
  {
    JsonBool.DecodeEncode(true);
  }

  /** The hook's `false`, with any JSON whitespace around it, keeps the transfer. */
  lemma ResolveKeepsOnFalse(l: Ledger, p: PendingResolve, payload: seq<JsonBool.byte>)
    requires JsonBool.IsPaddedLiteral(payload, false)
    ensures NftResolveTransfer(l, p, Successful(payload)) == Resolved(l, true)
  {
    JsonBool.DecodePaddedLiteral(payload, false);
  }

  /** Whatever resolve decides, an owner index that agreed with the store
      before still agrees with it afterwards. */
  lemma ResolvePreservesOwnerIndexAgreement(l: Ledger, p: PendingResolve, outcome: PromiseResult)
    requires OwnerIndexAgrees(l)
    ensures OwnerIndexAgrees(NftResolveTransfer(l, p, outcome).ledger)
  {
    var r := NftResolveTransfer(l, p, outcome);
    if !r.transferred {
      var l' := r.ledger;
      forall o, t
        ensures Owns(l'.tokensPerOwner, o, t) <==> t in l'.tokensById && l'.tokensById[t].ownerId == o
      {
        if t == p.tokenId && o != p.receiverId && o != p.ownerId {
          assert !Owns(l.tokensPerOwner, o, t);
        }
      }
    }
  }

  /** Resolve keeps the ledger consistent, whatever it decides. */
  lemma ResolvePreservesConsistent(l: Ledger, p: PendingResolve, outcome: PromiseResult)
    requires Consistent(l)
    ensures Consistent(NftResolveTransfer(l, p, outcome).ledger)
  {
    ResolvePreservesOwnerIndexAgreement(l, p, outcome);
  }
}

=== FILE: options.dfy ===
/** The optional value used throughout the model, mirroring Rust's `Option`. */
module Options {

  datatype Option<+T> = None | Some(value: T)
}

=== FILE: protocol.dfy ===
/**
  The transfer-with-confirmation protocol end to end: the optimistic first
  phase of `nft_transfer_call`, possibly other calls, then
  `nft_resolve_transfer` with the hook's outcome.
*/
module Protocol {
  import opened Store
  import JsonBool
  import Minting
  import opened Core

  /** Rolling back right after the optimistic transfer restores the ownership
      store exactly and the owner index up to membership, and reports that
      the transfer did not complete. The restore holds whoever the sender
      is; the ledger is consistent again when the sender owned the token. */
  lemma TransferCallThenRollbackRestores(
    l: Ledger, senderId: AccountId, receiverId: AccountId, tokenId: TokenId, msg: string, outcome: PromiseResult)
    requires Consistent(l)
    requires tokenId in l.tokensById
    requires !ReceiverKeeps(outcome)
    ensures NftTransferCall(l, true, senderId, receiverId, tokenId, msg).Ok?
    ensures var started := NftTransferCall(l, true, senderId, receiverId, tokenId, msg).value;
            var resolved := NftResolveTransfer(started.ledger, started.pending, outcome);
            && !resolved.transferred
            && resolved.ledger.tokensById == l.tokensById
            && (forall o, t :: Owns(resolved.ledger.tokensPerOwner, o, t) <==> Owns(l.tokensPerOwner, o, t))
            && resolved.ledger.(tokensById := l.tokensById, tokensPerOwner := l.tokensPerOwner) == l
            && (l.tokensById[tokenId].ownerId == senderId ==> Consistent(resolved.ledger))
  {
    var started := NftTransferCall(l, true, senderId, receiverId, tokenId, msg).value;
    var moved := InternalTransfer(l, senderId, receiverId, tokenId).value;
    assert started.ledger == moved.ledger;
    if l.tokensById[tokenId].ownerId == senderId {
      InternalTransferPreservesConsistent(l, senderId, receiverId, tokenId);
      ResolvePreservesConsistent(started.ledger, started.pending, outcome);
    }
    var resolved := NftResolveTransfer(started.ledger, started.pending, outcome);
    assert resolved.ledger.tokensById == l.tokensById;
    forall o, t
      ensures Owns(resolved.ledger.tokensPerOwner, o, t) <==> Owns(l.tokensPerOwner, o, t)
    {
      assert Owns(l.tokensPerOwner, o, t) <==> t in l.tokensById && l.tokensById[t].ownerId == o;
    }
  }

  /** When the hook returns `false` the optimistic transfer is final: the
      receiver owns the token in the store and in the owner index. */
  lemma TransferCallThenKeep(
    l: Ledger, senderId: AccountId, receiverId: AccountId, tokenId: TokenId, msg: string, outcome: PromiseResult)
    requires tokenId in l.tokensById
    requires ReceiverKeeps(outcome)
    ensures NftTransferCall(l, true, senderId, receiverId, tokenId, msg).Ok?
    ensures var started := NftTransferCall(l, true, senderId, receiverId, tokenId, msg).value;
            var resolved := NftResolveTransfer(started.ledger, started.pending, outcome);
            && resolved.transferred
            && resolved.ledger == started.ledger
            && resolved.ledger.tokensById[tokenId].ownerId == receiverId
            && Owns(resolved.ledger.tokensPerOwner, receiverId, tokenId)
  {
  }

  /** If the receiver passes the token on before resolve runs, resolve leaves
      the later transfer alone, whatever the hook reported. */
  lemma LaterTransferIsNotReverted(
    l: Ledger, senderId: AccountId, receiverId: AccountId, nextOwnerId: AccountId,
    tokenId: TokenId, msg: string, outcome: PromiseResult)
    requires tokenId in l.tokensById
    requires nextOwnerId != receiverId
    ensures NftTransferCall(l, true, senderId, receiverId, tokenId, msg).Ok?
    ensures var started := NftTransferCall(l, true, senderId, receiverId, tokenId, msg).value;
            var onward := NftTransfer(started.ledger, true, receiverId, nextOwnerId, tokenId);
            && onward.Ok?
            && NftResolveTransfer(onward.value, started.pending, outcome) == Resolved(onward.value, true)
            && onward.value.tokensById[tokenId].ownerId == nextOwnerId
  {
  }

  const Alice: AccountId := "alice.near"
  const Bob: AccountId := "bob.near"

  /** Token 0 is minted to Alice, Alice sends it to Bob with a confirmation
      call, and Bob's hook answers `true`: the token is back with Alice and
      resolve reports that the transfer did not complete. */
  lemma ScenarioReturnedToken(metadata: TokenMetadata, msg: string)
    ensures Minting.NftMint(Initial, metadata, Alice).Ok?
    ensures var minted := Minting.NftMint(Initial, metadata, Alice).value;
            var started := NftTransferCall(minted, true, Alice, Bob, 0, msg);
            && started.Ok?
            && started.value.hook == OnTransferArgs(Alice, Alice, 0, msg)
            && started.value.ledger.tokensById[0].ownerId == Bob
            && var resolved := NftResolveTransfer(started.value.ledger, started.value.pending, Successful(JsonBool.Encode(true)));
               && !resolved.transferred
               && resolved.ledger.tokensById[0].ownerId == Alice
               && Owns(resolved.ledger.tokensPerOwner, Alice, 0)
               && !Owns(resolved.ledger.tokensPerOwner, Bob, 0)
  {
    InitialIsConsistent();
    Minting.MintPreservesConsistent(Initial, metadata, Alice);
    JsonBool.DecodeEncode(true);
  }
}

=== FILE: store.dfy ===
/**
  The contract's persistent ledger: the ownership store (`tokens_by_id`), the
  token metadata (`token_metadata_by_id`), the owner index
  (`tokens_per_owner`), the kind index keyed by (owner, kind), and
  `token_id_counter`. Also the index helpers the contract calls, whose bodies
  are not part of this model and are given their stated set semantics here.
*/
module Store {
  import opened Options

  type AccountId = string
  type TokenKind = string
  /** `TokenId` is a u128 in the contract; widths are not modelled. */
  type TokenId = nat

  /** The reasons a call panics. A panic reverts every write of the call. */
  datatype Error =
    | TokenAlreadyExists   // the collision assertion of nft_mint
    | TokenNotFound        // internal_transfer on an unknown id (assumed)
    | MetadataMissing      // unwrap of token_metadata_by_id.get(..)
    | LikesMissing         // unwrap of an absent num_of_likes
    | RequiresOneYocto     // assert_one_yocto

  /** A call either returns a value or panics with an error. */
  datatype Result<+T> = Ok(value: T) | Err(error: Error)

  datatype TokenOwner = TokenOwner(ownerId: AccountId)

  /** The parts of `TokenMetadata` the ledger logic reads or writes. */
  datatype TokenMetadata = TokenMetadata(
    tokenId: Option<TokenId>,
    tokenKind: TokenKind,
    numOfLikes: Option<nat>)

  datatype Ledger = Ledger(
    tokensById: map<TokenId, TokenOwner>,
    tokenMetadataById: map<TokenId, TokenMetadata>,
    tokensPerOwner: map<AccountId, set<TokenId>>,
    tokensPerKind: map<(AccountId, TokenKind), set<TokenId>>,
    tokenIdCounter: nat)

  /** Membership in the owner index; an absent entry and an empty set agree. */
  predicate Owns(index: map<AccountId, set<TokenId>>, owner: AccountId, id: TokenId) {
    owner in index && id in index[owner]
  }

  /** Membership in the kind index. */
  predicate HasKind(index: map<(AccountId, TokenKind), set<TokenId>>, owner: AccountId, kind: TokenKind, id: TokenId) {
    (owner, kind) in index && id in index[(owner, kind)]
  }

  /** internal_add_token_to_owner: set-insert of `id` into `owner`'s entry. */
  function AddTokenToOwner(index: map<AccountId, set<TokenId>>, owner: AccountId, id: TokenId): (r: map<AccountId, set<TokenId>>)
    ensures forall o, t :: Owns(r, o, t) <==> Owns(index, o, t) || (o == owner && t == id)
  {
    index[owner := (if owner in index then index[owner] else {}) + {id}]
  }

  /** internal_remove_token_from_owner: set-remove of `id` from `owner`'s entry. */
  function RemoveTokenFromOwner(index: map<AccountId, set<TokenId>>, owner: AccountId, id: TokenId): (r: map<AccountId, set<TokenId>>)
    ensures forall o, t :: Owns(r, o, t) <==> Owns(index, o, t) && !(o == owner && t == id)
  {
    if owner in index then index[owner := index[owner] - {id}] else index
  }

  /** internal_add_token_to_kind_map: set-insert of `id` into the (owner, kind) entry. */
  function AddTokenToKindMap(index: map<(AccountId, TokenKind), set<TokenId>>, owner: AccountId, id: TokenId, kind: TokenKind)
    : (r: map<(AccountId, TokenKind), set<TokenId>>)
    ensures forall o, k, t :: HasKind(r, o, k, t) <==> HasKind(index, o, k, t) || (o == owner && k == kind && t == id)
  {
    var key := (owner, kind);
    index[key := (if key in index then index[key] else {}) + {id}]
  }

  /** The owner index holds exactly the pairs the ownership store records. */
  ghost predicate OwnerIndexAgrees(l: Ledger) {
    forall o, t :: Owns(l.tokensPerOwner, o, t) <==> t in l.tokensById && l.tokensById[t].ownerId == o
  }

  /** Every kind-index entry names a minted token of that kind. */
  ghost predicate KindIndexSound(l: Ledger) {
    forall o, k, t :: HasKind(l.tokensPerKind, o, k, t) ==> t in l.tokenMetadataById && l.tokenMetadataById[t].tokenKind == k
  }

  /** Every id in use lies below the counter, so the counter is never reused. */
  ghost predicate IdsBelowCounter(l: Ledger) {
    forall t :: t in l.tokensById ==> t < l.tokenIdCounter
  }

  /** Every minted token carries metadata stamped with its own id and a like count. */
  ghost predicate MetadataStamped(l: Ledger) {
    && l.tokenMetadataById.Keys == l.tokensById.Keys
    && forall t :: t in l.tokenMetadataById ==>
         l.tokenMetadataById[t].tokenId == Some(t) && l.tokenMetadataById[t].numOfLikes.Some?
  }

  /** The ledger invariant. Mint, token_id_count, the queries and resolve
      keep it on every input; a transfer keeps it when the sender owns the
      token. */
  ghost predicate Consistent(l: Ledger) {
    && IdsBelowCounter(l)
    && MetadataStamped(l)
    && OwnerIndexAgrees(l)
    && KindIndexSound(l)
  }

  /** The ledger right after deployment. */
  const Initial: Ledger := Ledger(map[], map[], map[], map[], 0)

  lemma InitialIsConsistent()
    ensures Consistent(Initial)
  {
  }
}
